=== FILE: README.md ===
# SciBowl game logic in Dafny

A model of the decision logic of the SciBowl page (`script.js`). The page is a
Science Bowl practice game. It loads a question bank, offers a category menu, and
draws a question from the ticked categories. It reveals the question one UTF-16 code
unit per tick, then runs a five-second buzz window. A buzz opens an eight-second answer
window. The answer is judged locally for multiple-choice questions and by a
language-model reply otherwise, and the verdict is tallied per category.

The model has one module per concern:

- `Strings`: ASCII `trim`, `toUpperCase`, `toLowerCase`, `startsWith` and `includes`.
- `Utf16`: JavaScript strings as UTF-16 code units, which `length` and indexing count.
- `Lexicographic`: the string order used by `sort()`, and insertion into an ascending,
  duplicate-free list.
- `Seqs`: `Array.prototype.filter`.
- `Repository`: the question record, the bonus filter, the category menu, the
  category-filtered pool and the random draw.
- `Verifier`: the multiple-choice check and the reading of the language-model reply.
- `Scoreboard`: the per-category `{correct, wrong}` tallies.
- `Countdown`: `startTimer` with its single shared interval handle, as one-second ticks.
- `Lifecycle`: the page state (`currentQuestion`, `buzzed`, `waitingForNext`, the scores,
  the running reveal and countdown) and one pure step per event.

Some inputs come from outside the page's logic and become parameters:

- the fetched question array, or `None` when the fetch or its format check fails;
- the text of the language-model reply, or `None` when the call fails or the reply has
  no text;
- the contents of the answer box;
- the set of ticked categories;
- the value of `Math.random()`, as a real `roll` with `0 <= roll < 1`.

The model follows the code as written, including these behaviours of the code:

- With no language-model key, `checkWithGemini` returns `false` at script.js:153, so
  every free-response answer is judged wrong, whatever was typed (`Verifier.JudgeReply`,
  `Verifier.Verdict`).
- The empty answer can be right. At script.js:188-192 a key without a leading `X)` gives
  the letter `""`, and every answer starts with `""`. A lettered key whose option text
  trims to nothing gives `correctText === ""`, which the empty answer equals
  (`Verifier.EmptyAnswer`).
- For the same reason, a key without a leading `X)` accepts every answer
  (`Verifier.UnletteredKeyAcceptsAll`).
- `startsWith(correctLetter)` at script.js:192 accepts any answer whose first character
  is the option letter, whatever follows it (`Verifier.LetterPrefixSuffices`).
- `submitAnswer` (script.js:176-210) checks no state. It runs before any question and
  after a verdict, and each run scores one more answer (`Lifecycle.Submit`).
- `nextQuestion` (script.js:212-235) never clears `timerId`. An answer window still
  running when Start is clicked again submits against the newly drawn question if it
  expires before that question's reveal ends; since `nextQuestion` has cleared the answer
  box (script.js:216), that submission is the empty answer. Otherwise the end of the
  reveal starts the buzz window (script.js:93-95), whose `startTimer` cancels the answer
  window (script.js:109), and it never submits (`Lifecycle.Next`,
  `Lifecycle.RevealEndReplacesAnswerWindow`).
- With an empty pool, `nextQuestion` returns at script.js:226-229 before touching
  `currentQuestion` or `typingInterval`. A reveal still running keeps appending to the
  "No questions" message (`Lifecycle.Next`).
- The menu at script.js:51-53 lists a missing or empty category as "Unknown". The pool at
  script.js:225 compares the raw `category` field, so such questions are never drawn.
  Ticking "Unknown" matches only questions whose category is literally "Unknown"
  (`Repository.PoolOfWholeMenu`).
- `showQuestion` (script.js:89-91) appends `q[i++]` while `i < q.length`, one UTF-16
  code unit per tick. A character above U+FFFF takes two ticks, and after the first the
  screen holds half of its surrogate pair (`Lifecycle.RevealSplitsAstral`).

## Model

| member | source | states |
|---|---|---|
| Strings.TrimOfPadded | script.js:181 | Trimming a string made of white space, a core with no white space at either end, and white space again gives back exactly the core |
| Strings.TrimParts | script.js:181 | Every string is its trimmed form with a run of white space before it and a run after it |
| Strings.TrimIsTight | script.js:181 | A trimmed string has no white space at either end |
| Strings.TrimAbsorbsPadding | script.js:181 | White space added around an answer does not change its trimmed form |
| Strings.TrimCommutesWithUpper | script.js:190-191 | Trimming and upper-casing can be done in either order |
| Strings.CaseAbsorbs | script.js:191 | Upper-casing after lower-casing is the same as upper-casing alone |
| Strings.UpperEach | script.js:191 | Upper-casing maps each character to its ASCII upper-case form, position by position |
| Strings.LowerEach | script.js:169 | Lower-casing maps each character to its ASCII lower-case form, position by position |
| Strings.ContainsAt | script.js:187 | `includes` finds a substring exactly when it occurs at some position of the string |
| Utf16.Units | script.js:90-91 | A character below U+10000 is one code unit; any other is a high surrogate followed by a low surrogate that together give back its code point |
| Utf16.Encode | script.js:90-91 | A JavaScript string is never shorter than its character count, and equals it, unit for character, when every character is below U+10000 |
| Utf16.DecodeEncode | script.js:90-91 | Reading the code units of a string back as characters gives the string, so the encoding loses nothing |
| Lexicographic.Insert | script.js:51-53 | Inserting a name into an ascending, duplicate-free list keeps it ascending and adds exactly that name |
| Lexicographic.BelowTotal | script.js:53 | Of two different strings, one sorts before the other |
| Lexicographic.BelowTransitive | script.js:53 | The sort order is transitive |
| Lexicographic.AscendingUnique | script.js:51-53 | Two strictly ascending lists with the same members are equal, so the sorted distinct menu is determined by its set of names |
| Seqs.Filter | script.js:32 | The filtered array keeps exactly the elements that pass, each as often as in the input, and is no longer than the input |
| Seqs.FilterConcat | script.js:32 | Filtering a concatenation filters each part and concatenates the results, so the kept elements stay in their input order |
| Seqs.FilterAgrees | script.js:225 | Filters with tests that agree on every element give the same array |
| Repository.CategoryName | script.js:52 | A non-empty category is listed and scored under its own name; a missing or empty one is "Unknown"; the result is never empty |
| Repository.LoadBank | script.js:32 | The bank keeps exactly the fetched questions whose `bonus` is `false`, with their multiplicities |
| Repository.Categories | script.js:51-53 | The menu is strictly ascending, hence duplicate-free, and holds exactly the bank's listed categories |
| Repository.Menu | script.js:24-53 | A fetched array yields a menu; a failed fetch yields none. The menu holds exactly the categories of the non-bonus questions, in ascending order |
| Repository.Pool | script.js:224-225 | The pool keeps exactly the bank's questions whose raw category is ticked, with their multiplicities |
| Repository.DrawIndex | script.js:231 | `floor(roll * n)` is a valid index of an array of length n |
| Repository.Draw | script.js:231 | The drawn question belongs to the pool |
| Repository.DrawCoversPool | script.js:231 | Every question of the pool is drawn by some roll in [0, 1) |
| Repository.PoolOfWholeMenu | script.js:224-225 | With the whole menu ticked, the pool is the questions whose raw category is a non-empty name, so those listed as "Unknown" for lack of a category are never drawn |
| Verifier.MultipleChoice | script.js:187-192 | A key without an option letter accepts every answer; with one, an answer that opens with the letter after trimming and upper-casing is right |
| Verifier.KeyedAnswer | script.js:181-192 | For a key `L) text`, an answer is right exactly when, trimmed and upper-cased, it starts with `L` or equals `text` trimmed and upper-cased |
| Verifier.UnletteredKeyAcceptsAll | script.js:188-192 | Every answer is right exactly when the key does not open with an upper-case letter and `)` |
| Verifier.EmptyAnswer | script.js:181-192 | The empty answer is right exactly when the key has no option letter or its option text is blank |
| Verifier.CaseAndPaddingBlind | script.js:181-192 | Lower-casing, upper-casing or padding the answer with white space never changes the verdict |
| Verifier.LetterPrefixSuffices | script.js:189-192 | An answer whose first non-space character is the option letter, in either case, is right |
| Verifier.LetterAccepted | script.js:187-192 | The option letter typed alone, in either case, is right |
| Verifier.OtherLetterRejected | script.js:187-192 | Another single letter is wrong unless it is itself the whole option text |
| Verifier.JudgeReply | script.js:152-173 | A "yes" verdict needs a key and a reply |
| Verifier.JudgeReadsLeadingYes | script.js:168-169 | With a reply, the verdict is "yes" exactly when a key is set and the reply, past its leading white space, begins with y-e-s in any case |
| Verifier.LowerYes | script.js:169 | A lower-cased string starts with "yes" exactly when its first three characters are y, e, s in any case |
| Verifier.IsMultipleChoice | script.js:187 | A question is multiple-choice when its `type`, lower-cased, contains "multiple"; `MultipleChoiceKind` states this as an occurrence at some position |
| Verifier.MultipleChoiceKind | script.js:187 | A question is multiple-choice exactly when "multiple" occurs at some position of its lower-cased `type` |
| Verifier.Verdict | script.js:186-195 | A multiple-choice verdict is the letter-or-text check and ignores the key and the reply; any other verdict, including one with no current question, is right exactly when a key is set and the reply, past its leading white space, begins with y-e-s in any case |
| Scoreboard.Record | script.js:183-198 | Scoring creates the category at zero if absent, grows exactly one of its counters by one (`correct` exactly when the verdict is right), and leaves every other category unchanged |
| Scoreboard.RecordGrows | script.js:197-198 | Scoring never lowers a counter and never drops a category |
| Scoreboard.Tally | script.js:197-198 | After a history of submissions, each category's counters are its earlier counters plus its number of right and of wrong outcomes |
| Scoreboard.Gains | script.js:183-184 | After a history of submissions, the board has gained exactly the categories that occur in the history |
| Scoreboard.Conservation | script.js:197-198 | From an empty board, a category's two counters add up to its number of submissions |
| Countdown.Tick | script.js:110-118 | A tick of a running countdown lowers `timeLeft` by one; it fires the countdown's action and clears the handle exactly when `timeLeft` reaches zero or below; an idle clock is unchanged |
| Countdown.FiresOnce | script.js:106-119 | A countdown started at n seconds fires its own action exactly once, on tick max(n, 1), never fires any other action, and stops with the handle cleared |
| Countdown.IdleStaysIdle | script.js:109-116 | Once the handle is cleared, ticks change nothing and fire nothing |
| Lifecycle.ScoredUnder | script.js:183 | A submission is always scored under a non-empty category |
| Lifecycle.Load | script.js:24-43 | A fetched array replaces the bank with its non-bonus questions; a failure leaves the state as it was |
| Lifecycle.Next | script.js:212-235 | Next clears `buzzed`, `waitingForNext` and the results line, and keeps the scores and the countdown. With an empty pool it keeps the question and the reveal and shows the "No questions" message; otherwise the new question is the pool's question at `floor(roll * n)`, comes from the bank with a ticked category, and its reveal starts from nothing |
| Lifecycle.FullText | script.js:232-234 | The revealed text opens with "TYPE: " and ends with the question text, or with "undefined" when the record has none |
| Lifecycle.StartGame | script.js:14-22 | The Start click (script.js:252-256) sets the key to the trimmed input; a blank key changes nothing else, otherwise the click goes on to `nextQuestion` |
| Lifecycle.Buzz | script.js:126-150 | While waiting, a buzz moves to the next question; with a buzz already made or no question it does nothing; otherwise it sets `buzzed`, stops the reveal and replaces the countdown with the 8-second answer window |
| Lifecycle.Submit | script.js:176-210 | In any state a submission stops the countdown, shows the verdict, records exactly one answer under the current category (`correct` grows by one exactly when right, `wrong` exactly when not, the other counter unchanged), and sets `waitingForNext` |
| Lifecycle.Expire | script.js:95-101 | The end of the buzz window, when no buzz came, sets the missed-buzz message and `waitingForNext` and changes nothing else; after a buzz it changes nothing; the end of the answer window submits |
| Lifecycle.Step | script.js:252-272 | Dispatches each event to its handler: Start click, submit click or Enter, space bar, and the reveal and countdown intervals; specified by `StepInvariant` |
| Lifecycle.StepInvariant | script.js:126-235 | Every event keeps the reveal position within its text and the current question categorised, records at most one verdict under the current category, and never lowers a counter |
| Lifecycle.SubmitInvariant | script.js:183-198 | A submission keeps the state valid, never lowers a counter, and its board is the old board with the verdict of this very answer recorded under the current category |
| Lifecycle.ClockStepInvariant | script.js:110-118 | A countdown tick keeps the state valid and records at most one verdict |
| Lifecycle.InitialValid | script.js:4-12 | The page starts valid, with no question and no scores |
| Lifecycle.RevealStep | script.js:89-103 | A reveal tick touches only the screen, the reveal and the countdown: it appends the next code unit, or past the end stops the reveal and starts the 5-second buzz window; with no reveal it changes nothing |
| Lifecycle.RevealShowsPrefix | script.js:85-103 | After k reveal ticks the screen holds the first min(k, length) UTF-16 code units of the text; the tick after the last unit stops the reveal and opens the 5-second buzz window; nothing else changes |
| Lifecycle.RevealProgress | script.js:89-103 | From any point of a reveal, each tick appends the next code unit until all `q.length` units are shown, and the following tick stops the reveal and opens the buzz window |
| Lifecycle.RevealSplitsAstral | script.js:90-91 | A one-character text above U+FFFF shows a lone high surrogate after one tick, the whole character after two, and opens the buzz window only on the third |
| Lifecycle.RevealIdle | script.js:89-94 | With no reveal running, reveal ticks change nothing |
| Lifecycle.CountdownExpiresOnce | script.js:106-119 | A countdown of n >= 1 seconds changes only `timeLeft` for n - 1 ticks, runs its end action on tick n, and from then on ticks change nothing |
| Lifecycle.CountdownRuns | script.js:110-113 | Before its last second, a countdown's ticks only lower `timeLeft` |
| Lifecycle.CountdownFires | script.js:110-117 | From tick n on, a countdown of n >= 1 seconds has run its end action exactly once, on a stopped clock |
| Lifecycle.ClockStep | script.js:110-117 | A countdown tick leaves an idle clock's game unchanged, only lowers `timeLeft` before the last second, and on the last second leaves the clock stopped |
| Lifecycle.ClockStepFires | script.js:113-117 | The tick of the last second clears the handle and then runs the end action the countdown carried |
| Lifecycle.ClockIdle | script.js:113-116 | With no countdown running, clock ticks change nothing |
| Lifecycle.AnswerWindowSubmitsOnce | script.js:149 | After a buzz, the answer window submits the answer box exactly once, on its eighth tick, and later ticks add nothing |
| Lifecycle.RevealEndReplacesAnswerWindow | script.js:93-109 | An answer window left running by Next survives the draw, but if it has not expired, the tick after the new question's last code unit starts the buzz window in its place, with the scores untouched |
| Lifecycle.MissedBuzz | script.js:95-101 | A question revealed and left unbuzzed through the buzz window ends waiting for the next question with the missed-buzz message and the scores untouched |
| Lifecycle.LetterAnswerScores | script.js:187-198 | A multiple-choice question answered with its option letter, in either case, scores one right answer on an empty board |
| Lifecycle.OtherLetterScores | script.js:187-198 | The same question answered with another letter that is not the option text scores one wrong answer |

## Left out

- Network I/O is not modelled: the fetch of the question bank, the check of its response status and format, and the language-model request with its prompt and JSON parsing. The fetched array and the reply text are inputs instead.
- Non-string JSON values are not modelled. `category`, `type`, `parsed_answer` and `parsed_question` are strings or absent, and `bonus` is a boolean or absent.
- The DOM is not modelled: the `innerHTML` rendering of the menu and the scores, the checkbox id sanitiser, alerts, focus, enabling the answer box, the timer display, and the click and key listeners. The space bar and the Enter key are the `Space` and `SubmitClick` events.
- A page missing one of the elements the code looks up is not modelled; every element is assumed present.
- The reveal speed read from the page and real time are not modelled. Reveal and countdown intervals are discrete ticks, and a separate event stream orders them.
- `Math.random` is not modelled; its value is the `roll` parameter.
- Submit: the language-model call is awaited inside `submitAnswer`, so other events could interleave before the verdict lands. The model applies a submission atomically.
- Scoreboard.Record: a category named like a built-in object property (for example "constructor") is not modelled. In the code such a name finds an inherited property instead of a fresh entry.
- Strings.UpperEach: case mapping is ASCII-only. The code's `toUpperCase` and `toLowerCase` also map non-ASCII letters, sometimes to longer strings.
- Strings.TrimOfPadded: `trim` strips only the six ASCII white-space characters. The code's `trim` also strips Unicode spaces and line terminators.
- Repository.Categories: names are ordered by code point. The code's `sort()` compares UTF-16 code units, which agrees for characters below U+10000.

=== FILE: countdown.dfy ===
/**
  `startTimer`: one shared countdown handle. Starting a countdown replaces whatever
  countdown was running; each one-second tick decrements `timeLeft`, and the tick that
  brings it to zero or below clears the handle and fires the countdown's end action.
 */
module Countdown {
  import opened Optional

  /** The end action a countdown carries: the buzz window's or the answer window's. */
  datatype Alarm = BuzzWindow | AnswerWindow

  /** `timeLeft` and the action of the active handle (`None` when no countdown runs). */
  datatype Clock = Clock(timeLeft: int, alarm: Option<Alarm>)

  const Stopped: Clock := Clock(0, None)

  /** Starting a countdown: the previous handle, if any, is cancelled and forgotten. */
  function Start(seconds: int, a: Alarm): Clock
  {
    Clock(seconds, Some(a))
  }

  /** The clock after a tick, and the end action the tick fired, if any. */
  datatype Ticked = Ticked(clock: Clock, fired: Option<Alarm>)

  function Tick(c: Clock): (r: Ticked)
    ensures c.alarm.None? ==> r == Ticked(c, None)
    ensures c.alarm.Some? ==> r.clock.timeLeft == c.timeLeft - 1
    ensures r.fired.Some? <==> c.alarm.Some? && c.timeLeft <= 1
    ensures r.fired.Some? ==> r.fired == c.alarm && r.clock.alarm.None?
    ensures r.fired.None? ==> r.clock.alarm == c.alarm
  {
    match c.alarm
    case None => Ticked(c, None)
    case Some(a) =>
      var left := c.timeLeft - 1;
      if left <= 0 then Ticked(Clock(left, None), Some(a)) else Ticked(Clock(left, Some(a)), None)
  }

  /** The clock after `k` ticks. */
  function After(c: Clock, k: nat): Clock
    decreases k
  {
    if k == 0 then c else After(Tick(c).clock, k - 1)
  }

  /** How many of the first `k` ticks fired end action `b`. */
  function Firings(c: Clock, k: nat, b: Alarm): nat
    decreases k
  {
    if k == 0 then 0
    else
      var t := Tick(c);
      (if t.fired == Some(b) then 1 else 0) + Firings(t.clock, k - 1, b)
  }

  /**
    A countdown started at `n` seconds fires its own action exactly once, on tick
    max(n, 1), and never fires any other action, in particular not the one it replaced.
   */
  lemma {:induction false} FiresOnce(n: int, a: Alarm, b: Alarm, k: nat)
    ensures Firings(Start(n, a), k, b) == if b == a && k >= Max1(n) then 1 else 0
    ensures k < Max1(n) ==> After(Start(n, a), k) == Clock(n - k, Some(a))
    ensures k >= Max1(n) ==> After(Start(n, a), k) == Clock(Min0(n - 1), None)
  {
    if k > 0 {
      if n > 1 {
        assert Tick(Start(n, a)) == Ticked(Start(n - 1, a), None);
        FiresOnce(n - 1, a, b, k - 1);
      } else {
        assert Tick(Start(n, a)) == Ticked(Clock(n - 1, None), Some(a));
        IdleStaysIdle(Clock(n - 1, None), k - 1, b);
      }
    }
  }

  /** A clock with no handle never changes and never fires. */
  lemma {:induction false} IdleStaysIdle(c: Clock, k: nat, b: Alarm)
    requires c.alarm.None?
    ensures After(c, k) == c && Firings(c, k, b) == 0
  {
    if k > 0 {
      IdleStaysIdle(c, k - 1, b);
    }
  }

  function Max1(n: int): int
  {
    if n < 1 then 1 else n
  }

  /** The final `timeLeft`: 0 for a positive start, one below the start otherwise. */
  function Min0(n: int): int
  {
    if n > 0 then 0 else n
  }
}

=== FILE: lexicographic.dfy ===
/**
  The default ordering of `Array.prototype.sort` on strings: lexicographic comparison,
  character by character, a proper prefix sorting first. Characters compare by code.
 */
module Lexicographic {

  predicate Below(a: string, b: string)
  {
    if |a| == 0 then |b| > 0
    else |b| > 0 && (a[0] < b[0] || (a[0] == b[0] && Below(a[1..], b[1..])))
  }

  lemma {:induction false} BelowIrreflexive(a: string)
    ensures !Below(a, a)
  {
    if |a| > 0 {
      BelowIrreflexive(a[1..]);
    }
  }

  lemma {:induction false} BelowTransitive(a: string, b: string, c: string)
    requires Below(a, b) && Below(b, c)
    ensures Below(a, c)
  {
    if |a| > 0 && a[0] == b[0] && b[0] == c[0] {
      BelowTransitive(a[1..], b[1..], c[1..]);
    }
  }

  lemma {:induction false} BelowTotal(a: string, b: string)
    requires a != b
    ensures Below(a, b) || Below(b, a)
  {
    if |a| > 0 && |b| > 0 && a[0] == b[0] {
      assert a == [a[0]] + a[1..] && b == [b[0]] + b[1..];
      BelowTotal(a[1..], b[1..]);
    }
  }

  /** Every earlier element is below every later one: sorted and free of duplicates. */
  ghost predicate Ascending(s: seq<string>)
  {
    forall i, j :: 0 <= i < j < |s| ==> Below(s[i], s[j])
  }

  /** Adds `x` to an ascending listing, keeping it ascending and duplicate-free. */
  function Insert(s: seq<string>, x: string): (r: seq<string>)
    requires Ascending(s)
    ensures Ascending(r)
    ensures forall y :: y in r <==> y in s || y == x
  {
    if |s| == 0 then [x]
    else if x == s[0] then s
    else if Below(x, s[0]) then
      assert forall j :: 1 <= j < |s| ==> Below(x, s[j]) by {
        forall j | 1 <= j < |s| ensures Below(x, s[j]) {
          BelowTransitive(x, s[0], s[j]);
        }
      }
      [x] + s
    else
      BelowTotal(x, s[0]);
      var t := Insert(s[1..], x);
      assert forall y :: y in t ==> Below(s[0], y) by {
        forall y | y in t ensures Below(s[0], y) {
          if y != x {
            var j :| 0 <= j < |s[1..]| && s[1..][j] == y;
            assert s[j + 1] == y;
          }
        }
      }
      [s[0]] + t
  }

  /** The order is strict and total, so an ascending listing of a set is the only one. */
  lemma {:induction false} AscendingUnique(s: seq<string>, t: seq<string>)
    requires Ascending(s) && Ascending(t)
    requires forall y :: y in s <==> y in t
    ensures s == t
  {
    EmptyTogether(s, t);
    if |s| > 0 {
      if s[0] != t[0] {
        BelowTotal(s[0], t[0]);
        if Below(s[0], t[0]) {
          LeastOf(t, s[0]);
        } else {
          LeastOf(s, t[0]);
        }
      } else {
        forall y ensures y in s[1..] <==> y in t[1..] {
          if y in s[1..] {
            NotFirst(s, y);
          }
          if y in t[1..] {
            NotFirst(t, y);
          }
        }
        AscendingUnique(s[1..], t[1..]);
        assert s == [s[0]] + s[1..] && t == [t[0]] + t[1..];
      }
    }
  }

  lemma EmptyTogether(s: seq<string>, t: seq<string>)
    requires forall y :: y in s <==> y in t
    ensures |s| == 0 <==> |t| == 0
  {
    if |s| > 0 {
      assert s[0] in t;
    }
    if |t| > 0 {
      assert t[0] in s;
    }
  }

  /** Nothing below the head of an ascending listing belongs to it. */
  lemma LeastOf(s: seq<string>, y: string)
    requires Ascending(s) && |s| > 0 && Below(y, s[0])
    ensures y !in s
  {
    if y in s {
      var j :| 0 <= j < |s| && s[j] == y;
      if j == 0 {
        BelowIrreflexive(y);
      } else {
        BelowTransitive(y, s[0], s[j]);
        BelowIrreflexive(y);
      }
    }
  }

  /** The tail of an ascending listing does not contain its head. */
  lemma NotFirst(s: seq<string>, y: string)
    requires Ascending(s) && |s| > 0 && y in s[1..]
    ensures y != s[0] && y in s
  {
    var j :| 0 <= j < |s[1..]| && s[1..][j] == y;
    assert s[j + 1] == y;
    if y == s[0] {
      BelowIrreflexive(y);
    }
  }
}

=== FILE: lifecycle.dfy ===
/**
  The question lifecycle: the session state of the page and one pure step per event
  (fetch settled, Start clicked, space bar or buzz, reveal tick, countdown tick, answer
  submitted). Randomness, the answer box contents and the language-model reply arrive as
  event parameters; the screen is reduced to the question text and the results line.
 */
module Lifecycle {
  import opened Optional
  import opened Strings
  import opened Repository
  import opened Verifier
  import opened Scoreboard
  import opened Utf16
  import Countdown

  /** Length of the buzz window that follows a completed reveal, in seconds. */
  const BuzzSeconds := 5
  /** Length of the answer window that follows a buzz, in seconds. */
  const AnswerSeconds := 8
  const NoQuestions := "No questions in selected categories!"

  /**
    A running reveal (`typingInterval`): the full text as the code units of a JavaScript
    string, and how many of them are on screen.
   */
  datatype Typing = Typing(text: seq<CodeUnit>, shown: nat)

  /** The results line: empty, the missed-buzz message, or a judged answer. */
  datatype Notice = Blank | NoBuzz | Judged(isCorrect: bool)

  datatype Game = Game(
    bank: seq<Question>,
    apiKey: string,
    current: Option<Question>,
    buzzed: bool,
    waitingForNext: bool,
    scores: Board,
    typing: Option<Typing>,
    display: seq<CodeUnit>,
    clock: Countdown.Clock,
    notice: Notice)

  const Initial: Game := Game([], "", None, false, false, map[], None, [], Countdown.Stopped, Blank)

  /**
    The text spelled for a question: its type ("Unknown" when blank), its category and the
    question itself, an absent field reading as "undefined".
   */
  function FullText(q: Question): (t: string)
    ensures |t| >= 6 && t[..6] == "TYPE: "
    ensures var body := q.text.GetOr("undefined"); |body| <= |t| && t[|t| - |body|..] == body
  {
    var kind := if q.kind != "" then q.kind else "Unknown";
    var category := q.category.GetOr("undefined");
    "TYPE: " + kind + "\nCATEGORY: " + category + "\n\n" + q.text.GetOr("undefined")
  }

  /** `showQuestion`: clear the question area and start a fresh reveal, dropping any old one. */
  function ShowQuestion(g: Game, text: string): Game
  {
    g.(display := [], typing := Some(Typing(Encode(text), 0)))
  }

  /** The category a submission is scored under: the current question's, "Unknown" if none. */
  function ScoredUnder(current: Option<Question>): (c: string)
    ensures c != ""
  {
    match current
    case Some(q) => CategoryName(q)
    case None => "Unknown"
  }

  /** `loadQuestions` once the fetch settles: a payload replaces the bank, a failure leaves it. */
  function Load(g: Game, fetched: Option<seq<Question>>): (r: Game)
    ensures fetched.None? ==> r == g
    ensures fetched.Some? ==> r == g.(bank := LoadBank(fetched.value))
  {
    match fetched
    case Some(qs) => g.(bank := LoadBank(qs))
    case None => g
  }

  /**
    `nextQuestion`: clears the flags and the results line and draws from the ticked
    categories. An empty pool only shows a message: the current question, the running
    reveal and the countdown are all left as they were. A draw never touches the countdown.
   */
  function Next(g: Game, ticked: set<string>, roll: real): (r: Game)
    requires 0.0 <= roll < 1.0
    ensures !r.buzzed && !r.waitingForNext && r.notice == Blank
    ensures r.scores == g.scores && r.clock == g.clock && r.bank == g.bank && r.apiKey == g.apiKey
    ensures |Pool(g.bank, ticked)| == 0 ==>
      r.current == g.current && r.typing == g.typing && r.display == Encode(NoQuestions)
    ensures |Pool(g.bank, ticked)| > 0 ==>
      && r.current == Some(Draw(Pool(g.bank, ticked), roll))
      && r.current.value in g.bank
      && r.current.value.category.Some? && r.current.value.category.value in ticked
      && r.typing == Some(Typing(Encode(FullText(r.current.value)), 0))
      && r.display == []
  {
    var cleared := g.(buzzed := false, waitingForNext := false, notice := Blank);
    var pool := Pool(g.bank, ticked);
    if |pool| == 0 then cleared.(display := Encode(NoQuestions))
    else
      var q := Draw(pool, roll);
      ShowQuestion(cleared.(current := Some(q)), FullText(q))
  }

  /** The Start button: read and trim the key; a blank key stops there, otherwise draw. */
  function StartGame(g: Game, keyInput: string, ticked: set<string>, roll: real): (r: Game)
    requires 0.0 <= roll < 1.0
    ensures r.apiKey == Trim(keyInput)
    ensures r.apiKey == "" ==> r == g.(apiKey := "")
    ensures r.apiKey != "" ==> r == Next(g.(apiKey := r.apiKey), ticked, roll)
  {
    var key := Trim(keyInput);
    var keyed := g.(apiKey := key);
    if key == "" then keyed else Next(keyed, ticked, roll)
  }

  /**
    `buzz`, also the space bar. While waiting for the next question it advances instead of
    buzzing; with a buzz already made or nothing on screen it does nothing; otherwise it
    buzzes, stops the reveal and replaces any countdown with the answer window.
   */
  function Buzz(g: Game, ticked: set<string>, roll: real): (r: Game)
    requires 0.0 <= roll < 1.0
    ensures g.waitingForNext ==> r == Next(g, ticked, roll) && !r.buzzed && !r.waitingForNext
    ensures !g.waitingForNext && (g.buzzed || g.current.None?) ==> r == g
    ensures !g.waitingForNext && !g.buzzed && g.current.Some? ==>
      && r.buzzed
      && r.typing.None?
      && r.clock == Countdown.Start(AnswerSeconds, Countdown.AnswerWindow)
      && r == g.(buzzed := true, typing := None, clock := r.clock)
    ensures r.scores == g.scores
  {
    if g.waitingForNext then Next(g, ticked, roll)
    else if g.buzzed || g.current.None? then g
    else g.(buzzed := true, typing := None, clock := Countdown.Start(AnswerSeconds, Countdown.AnswerWindow))
  }

  /**
    `submitAnswer`, accepted in every state: stop the countdown, judge the answer, score it
    under the current question's category, and wait for the next question. The reveal is
    not stopped.
   */
  function Submit(g: Game, typed: string, reply: Option<string>): (r: Game)
    ensures r.waitingForNext && r.clock.alarm.None? && r.clock.timeLeft == g.clock.timeLeft
    ensures r.notice == Judged(Verdict(g.current, g.apiKey, typed, reply))
    ensures var c := ScoredUnder(g.current);
      && r.scores.Keys == g.scores.Keys + {c}
      && Entry(r.scores, c).correct + Entry(r.scores, c).wrong ==
         Entry(g.scores, c).correct + Entry(g.scores, c).wrong + 1
      && (r.notice.isCorrect <==> Entry(r.scores, c).correct == Entry(g.scores, c).correct + 1)
      && (r.notice.isCorrect <==> Entry(r.scores, c).wrong == Entry(g.scores, c).wrong)
      && Entry(r.scores, c).correct >= Entry(g.scores, c).correct
      && Entry(r.scores, c).wrong >= Entry(g.scores, c).wrong
      && (forall other :: other in g.scores && other != c ==> r.scores[other] == g.scores[other])
    ensures r == g.(waitingForNext := true, clock := r.clock, notice := r.notice, scores := r.scores)
  {
    var isCorrect := Verdict(g.current, g.apiKey, typed, reply);
    var category := ScoredUnder(g.current);
    g.(clock := g.clock.(alarm := None),
       scores := Record(g.scores, category, isCorrect),
       notice := Judged(isCorrect),
       waitingForNext := true)
  }

  /**
    One reveal tick: show the next code unit, or, past the end, stop and open the buzz
    window. Only the screen, the reveal and the countdown can change.
   */
  function RevealStep(g: Game): (r: Game)
    ensures r == g.(display := r.display, typing := r.typing, clock := r.clock)
    ensures g.typing.None? ==> r == g
    ensures g.typing.Some? && g.typing.value.shown < |g.typing.value.text| ==>
      && r.display == g.display + [g.typing.value.text[g.typing.value.shown]]
      && r.typing == Some(g.typing.value.(shown := g.typing.value.shown + 1))
      && r.clock == g.clock
    ensures g.typing.Some? && g.typing.value.shown >= |g.typing.value.text| ==>
      r.display == g.display && r.typing.None? && r.clock == Countdown.Start(BuzzSeconds, Countdown.BuzzWindow)
  {
    match g.typing
    case None => g
    case Some(Typing(text, i)) =>
      if i < |text| then g.(display := g.display + [text[i]], typing := Some(Typing(text, i + 1)))
      else g.(typing := None, clock := Countdown.Start(BuzzSeconds, Countdown.BuzzWindow))
  }

  /**
    A countdown's end action. The buzz window's marks a missed buzz only when no buzz came
    and never touches the scores; the answer window's submits whatever is in the answer box.
   */
  function Expire(g: Game, a: Countdown.Alarm, typed: string, reply: Option<string>): (r: Game)
    requires g.clock.alarm.None?
    ensures r.clock == g.clock
    ensures a == Countdown.BuzzWindow ==>
      && r.scores == g.scores
      && r.waitingForNext == (g.waitingForNext || !g.buzzed)
      && (g.buzzed ==> r == g)
      && (!g.buzzed ==> r == g.(notice := NoBuzz, waitingForNext := true))
    ensures a == Countdown.AnswerWindow ==> r == Submit(g, typed, reply)
  {
    match a
    case BuzzWindow => if g.buzzed then g else g.(notice := NoBuzz, waitingForNext := true)
    case AnswerWindow => Submit(g, typed, reply)
  }

  /**
    One countdown tick: an idle clock changes nothing, a running one only counts down until
    its last second, whose tick stops the clock and runs the end action. The answer box
    contents and the reply matter only then.
   */
  function ClockStep(g: Game, typed: string, reply: Option<string>): (r: Game)
    ensures g.clock.alarm.None? ==> r == g
    ensures g.clock.alarm.Some? && g.clock.timeLeft > 1 ==>
      r == g.(clock := g.clock.(timeLeft := g.clock.timeLeft - 1))
    ensures g.clock.alarm.Some? && g.clock.timeLeft <= 1 ==> r.clock == Countdown.Clock(g.clock.timeLeft - 1, None)
  {
    var t := Countdown.Tick(g.clock);
    var ticked := g.(clock := t.clock);
    match t.fired
    case None => ticked
    case Some(a) => Expire(ticked, a, typed, reply)
  }

  datatype Event =
    | Fetched(payload: Option<seq<Question>>)
    | StartClick(keyInput: string, ticked: set<string>, roll: real)
    | Space(ticked: set<string>, roll: real)
    | TypingTick
    | SecondTick(typed: string, reply: Option<string>)
    | SubmitClick(typed: string, reply: Option<string>)

  /** Every roll stands for a `Math.random()` value, which lies in [0, 1). */
  predicate ValidEvent(e: Event)
  {
    (e.StartClick? || e.Space?) ==> 0.0 <= e.roll < 1.0
  }

  function Step(g: Game, e: Event): Game
    requires ValidEvent(e)
  {
    match e
    case Fetched(payload) => Load(g, payload)
    case StartClick(keyInput, ticked, roll) => StartGame(g, keyInput, ticked, roll)
    case Space(ticked, roll) => Buzz(g, ticked, roll)
    case TypingTick => RevealStep(g)
    case SecondTick(typed, reply) => ClockStep(g, typed, reply)
    case SubmitClick(typed, reply) => Submit(g, typed, reply)
  }

  /** What every reachable state satisfies. */
  predicate Valid(g: Game)
  {
    && (g.typing.Some? ==> g.typing.value.shown <= |g.typing.value.text|)
    && (g.current.Some? ==> g.current.value.category.Some?)
  }

  /** The scores are unchanged, or record one verdict under the current question's category. */
  predicate AtMostOneVerdict(g: Game, r: Game)
  {
    || r.scores == g.scores
    || r.scores == Record(g.scores, ScoredUnder(g.current), true)
    || r.scores == Record(g.scores, ScoredUnder(g.current), false)
  }

  /**
    Every event keeps the state valid and resolves at most one answer; no event lowers a
    counter or drops a category.
   */
  lemma StepInvariant(g: Game, e: Event)
    requires Valid(g) && ValidEvent(e)
    ensures Valid(Step(g, e))
    ensures AtMostOneVerdict(g, Step(g, e))
    ensures Grows(g.scores, Step(g, e).scores)
  {
    var r := Step(g, e);
    match e
    case Fetched(_) =>
    case StartClick(keyInput, ticked, roll) =>
      assert r.scores == g.scores;
    case Space(ticked, roll) =>
      assert r.scores == g.scores;
    case TypingTick =>
      assert r.scores == g.scores;
    case SecondTick(typed, reply) =>
      ClockStepInvariant(g, typed, reply);
    case SubmitClick(typed, reply) =>
      SubmitInvariant(g, typed, reply);
  }

  lemma SubmitInvariant(g: Game, typed: string, reply: Option<string>)
    requires Valid(g)
    ensures var r := Submit(g, typed, reply);
      Valid(r) && AtMostOneVerdict(g, r) && Grows(g.scores, r.scores)
    ensures Submit(g, typed, reply).scores ==
      Record(g.scores, ScoredUnder(g.current), Verdict(g.current, g.apiKey, typed, reply))
  {
    var v := Verdict(g.current, g.apiKey, typed, reply);
    var r := Submit(g, typed, reply);
    assert r.scores == Record(g.scores, ScoredUnder(g.current), v);
    RecordGrows(g.scores, ScoredUnder(g.current), v);
  }

  lemma ClockStepInvariant(g: Game, typed: string, reply: Option<string>)
    requires Valid(g)
    ensures var r := ClockStep(g, typed, reply);
      Valid(r) && AtMostOneVerdict(g, r) && Grows(g.scores, r.scores)
  {
    if g.clock.alarm.Some? && g.clock.timeLeft <= 1 {
      ClockStepFires(g, typed, reply);
      var stopped := g.(clock := Countdown.Clock(g.clock.timeLeft - 1, None));
      if g.clock.alarm.value == Countdown.AnswerWindow {
        SubmitInvariant(stopped, typed, reply);
      }
    } else if g.clock.alarm.Some? {
    }
  }

  lemma InitialValid()
    ensures Valid(Initial) && Initial.scores == map[] && Initial.current.None?
  {
  }

  function RevealTicks(g: Game, k: nat): Game
    decreases k
  {
    if k == 0 then g else RevealTicks(RevealStep(g), k - 1)
  }

  function ClockTicks(g: Game, k: nat, typed: string, reply: Option<string>): Game
    decreases k
  {
    if k == 0 then g else ClockTicks(ClockStep(g, typed, reply), k - 1, typed, reply)
  }

  /**
    After `k` reveal ticks of a freshly shown text the screen holds the first min(k, n) of
    its n UTF-16 code units; the tick after the last unit stops the reveal and opens the
    buzz window. Nothing else changes.
   */
  lemma RevealShowsPrefix(g: Game, text: string, k: nat)
    ensures var units := Encode(text);
      var r := RevealTicks(ShowQuestion(g, text), k);
      && r.display == units[..if k < |units| then k else |units|]
      && (k <= |units| ==> r.typing == Some(Typing(units, k)) && r.clock == g.clock)
      && (k > |units| ==> r.typing.None? && r.clock == Countdown.Start(BuzzSeconds, Countdown.BuzzWindow))
      && r == g.(display := r.display, typing := r.typing, clock := r.clock)
  {
    var units := Encode(text);
    var shown := ShowQuestion(g, text);
    assert shown == g.(display := units[..0], typing := Some(Typing(units, 0)));
    RevealProgress(shown, units, 0, k);
    if k <= |units| {
      assert RevealTicks(shown, k) == g.(display := units[..k], typing := Some(Typing(units, k)));
    } else {
      assert RevealTicks(shown, k) ==
        g.(display := units, typing := None, clock := Countdown.Start(BuzzSeconds, Countdown.BuzzWindow));
      assert units[..|units|] == units;
    }
  }

  /**
    A character above U+FFFF takes two reveal ticks: after the first the screen holds a lone
    high surrogate, after the second the whole character, and only the third tick opens the
    buzz window.
   */
  lemma RevealSplitsAstral(g: Game, c: char)
    requires c as int >= 0x1_0000
    ensures var first := RevealTicks(ShowQuestion(g, [c]), 1);
      |first.display| == 1 && IsHigh(first.display[0]) && first.typing.Some?
    ensures var second := RevealTicks(ShowQuestion(g, [c]), 2);
      Decode(second.display) == [c] && second.typing.Some? && second.clock == g.clock
    ensures RevealTicks(ShowQuestion(g, [c]), 3).clock == Countdown.Start(BuzzSeconds, Countdown.BuzzWindow)
  {
    assert Encode([c]) == Units(c) + Encode([c][1..]);
    assert Encode([c]) == Units(c);
    DecodeEncode([c]);
    RevealShowsPrefix(g, [c], 1);
    RevealShowsPrefix(g, [c], 2);
    RevealShowsPrefix(g, [c], 3);
  }

  lemma {:induction false} RevealProgress(g: Game, text: seq<CodeUnit>, i: nat, k: nat)
    requires g.typing == Some(Typing(text, i)) && i <= |text| && g.display == text[..i]
    ensures i + k <= |text| ==>
      RevealTicks(g, k) == g.(display := text[..i + k], typing := Some(Typing(text, i + k)))
    ensures i + k > |text| ==>
      RevealTicks(g, k) ==
      g.(display := text, typing := None, clock := Countdown.Start(BuzzSeconds, Countdown.BuzzWindow))
    decreases k
  {
    if k > 0 {
      if i < |text| {
        var next := RevealStep(g);
        assert text[..i] + [text[i]] == text[..i + 1];
        assert next == g.(display := text[..i + 1], typing := Some(Typing(text, i + 1)));
        RevealProgress(next, text, i + 1, k - 1);
      } else {
        assert text[..i] == text;
        RevealIdle(RevealStep(g), k - 1);
      }
    }
  }

  lemma {:induction false} RevealIdle(g: Game, k: nat)
    requires g.typing.None?
    ensures RevealTicks(g, k) == g
    decreases k
  {
    if k > 0 {
      RevealIdle(RevealStep(g), k - 1);
    }
  }

  /**
    A countdown started at n >= 1 seconds leaves the game alone but for `timeLeft` for
    n - 1 ticks, runs its end action on tick n, and from then on ticks change nothing.
   */
  lemma CountdownExpiresOnce(
    g: Game, n: int, a: Countdown.Alarm, k: nat, typed: string, reply: Option<string>)
    requires g.clock == Countdown.Start(n, a) && n >= 1
    ensures k < n ==> ClockTicks(g, k, typed, reply) == g.(clock := Countdown.Start(n - k, a))
    ensures k >= n ==>
      ClockTicks(g, k, typed, reply) == Expire(g.(clock := Countdown.Clock(0, None)), a, typed, reply)
  {
    if k < n {
      CountdownRuns(g, n, a, k, typed, reply);
    } else {
      CountdownFires(g, n, a, k, typed, reply);
    }
  }

  lemma {:induction false} CountdownRuns(
    g: Game, n: int, a: Countdown.Alarm, k: nat, typed: string, reply: Option<string>)
    requires g.clock == Countdown.Start(n, a) && k < n
    ensures ClockTicks(g, k, typed, reply) == g.(clock := Countdown.Start(n - k, a))
    decreases k
  {
    if k > 0 {
      var next := ClockStep(g, typed, reply);
      assert next == g.(clock := Countdown.Start(n - 1, a));
      CountdownRuns(next, n - 1, a, k - 1, typed, reply);
      Reclock(g, Countdown.Start(n - 1, a), Countdown.Start(n - k, a));
    }
  }

  lemma {:induction false} CountdownFires(
    g: Game, n: int, a: Countdown.Alarm, k: nat, typed: string, reply: Option<string>)
    requires g.clock == Countdown.Start(n, a) && 1 <= n <= k
    ensures ClockTicks(g, k, typed, reply) == Expire(g.(clock := Countdown.Clock(0, None)), a, typed, reply)
    decreases k
  {
    var next := ClockStep(g, typed, reply);
    if n > 1 {
      assert next == g.(clock := Countdown.Start(n - 1, a));
      CountdownFires(next, n - 1, a, k - 1, typed, reply);
      Reclock(g, Countdown.Start(n - 1, a), Countdown.Clock(0, None));
    } else {
      ClockStepFires(g, typed, reply);
      ClockIdle(next, k - 1, typed, reply);
    }
  }

  lemma Reclock(g: Game, c: Countdown.Clock, d: Countdown.Clock)
    ensures g.(clock := c).(clock := d) == g.(clock := d)
  {
  }

  /** The last second's tick stops the clock and runs the end action the countdown carried. */
  lemma ClockStepFires(g: Game, typed: string, reply: Option<string>)
    requires g.clock.alarm.Some? && g.clock.timeLeft <= 1
    ensures ClockStep(g, typed, reply) ==
      Expire(g.(clock := Countdown.Clock(g.clock.timeLeft - 1, None)), g.clock.alarm.value, typed, reply)
  {
  }

  lemma {:induction false} ClockIdle(g: Game, k: nat, typed: string, reply: Option<string>)
    requires g.clock.alarm.None?
    ensures ClockTicks(g, k, typed, reply) == g
    decreases k
  {
    if k > 0 {
      ClockIdle(ClockStep(g, typed, reply), k - 1, typed, reply);
    }
  }

  /**
    After a buzz, the answer window submits the answer box exactly once, on its eighth
    tick, and any number of later ticks add nothing.
   */
  lemma AnswerWindowSubmitsOnce(g: Game, ticked: set<string>, roll: real, extra: nat, typed: string, reply: Option<string>)
    requires 0.0 <= roll < 1.0
    requires !g.waitingForNext && !g.buzzed && g.current.Some?
    ensures var buzzed := Buzz(g, ticked, roll);
      ClockTicks(buzzed, AnswerSeconds + extra, typed, reply) ==
      Submit(buzzed.(clock := Countdown.Clock(0, None)), typed, reply)
    ensures var r := ClockTicks(Buzz(g, ticked, roll), AnswerSeconds + extra, typed, reply);
      var c := ScoredUnder(g.current);
      r.waitingForNext &&
      Entry(r.scores, c).correct + Entry(r.scores, c).wrong == Entry(g.scores, c).correct + Entry(g.scores, c).wrong + 1
  {
    var buzzed := Buzz(g, ticked, roll);
    CountdownExpiresOnce(buzzed, AnswerSeconds, Countdown.AnswerWindow, AnswerSeconds + extra, typed, reply);
  }

  /**
    Next does not stop a running answer window, but the reveal of the new question does:
    if the window has not expired when the reveal ends, the buzz window replaces it and
    the stale window never submits.
   */
  lemma RevealEndReplacesAnswerWindow(g: Game, ticked: set<string>, roll: real, left: int)
    requires 0.0 <= roll < 1.0 && |Pool(g.bank, ticked)| > 0
    requires g.clock == Countdown.Start(left, Countdown.AnswerWindow)
    ensures var n := Next(g, ticked, roll);
      && n.clock == g.clock
      && n.typing.Some?
      && var r := RevealTicks(n, |n.typing.value.text| + 1);
      r.clock == Countdown.Start(BuzzSeconds, Countdown.BuzzWindow) && r.scores == g.scores
  {
    var n := Next(g, ticked, roll);
    assert n.typing.Some? && n.typing.value.shown == 0 && n.display == [] && n.scores == g.scores;
    RevealRunsOut(n);
  }

  /** A reveal started from an empty screen ends, one tick after its last unit, in the buzz window. */
  lemma RevealRunsOut(g: Game)
    requires g.typing.Some? && g.typing.value.shown == 0 && g.display == []
    ensures var units := g.typing.value.text;
      RevealTicks(g, |units| + 1) ==
      g.(display := units, typing := None, clock := Countdown.Start(BuzzSeconds, Countdown.BuzzWindow))
  {
    var units := g.typing.value.text;
    assert g.display == units[..0];
    RevealProgress(g, units, 0, |units| + 1);
  }

  /**
    A question spelled and left unbuzzed through the buzz window ends waiting for the next
    question with the missed-buzz message, no verdict taken and the scores untouched.
   */
  lemma MissedBuzz(g: Game, text: string, extra: nat, typed: string, reply: Option<string>)
    requires !g.buzzed
    ensures var spelled := RevealTicks(ShowQuestion(g, text), |Encode(text)| + 1);
      var r := ClockTicks(spelled, BuzzSeconds + extra, typed, reply);
      r.scores == g.scores && r.waitingForNext && r.notice == NoBuzz && r.clock.alarm.None?
  {
    RevealShowsPrefix(g, text, |Encode(text)| + 1);
    var spelled := RevealTicks(ShowQuestion(g, text), |Encode(text)| + 1);
    CountdownExpiresOnce(spelled, BuzzSeconds, Countdown.BuzzWindow, BuzzSeconds + extra, typed, reply);
  }

  /**
    Scoring example: a multiple-choice question keyed `L) text`, answered with the letter
    in either case, scores one right answer on an empty board.
   */
  lemma LetterAnswerScores(g: Game, q: Question, letter: char, text: string, c: char, reply: Option<string>)
    requires g.current == Some(q) && IsMultipleChoice(q) && q.answer == [letter, ')'] + text
    requires 'A' <= letter <= 'Z' && UpperChar(c) == letter
    requires g.scores == map[]
    ensures Submit(g, [c], reply).scores == map[CategoryName(q) := Score(1, 0)]
  {
    LetterAccepted(letter, text, c);
    assert Verdict(g.current, g.apiKey, [c], reply);
    ScoresOnEmpty(g, [c], reply);
  }

  /** The same question answered with another letter that is not the option text scores one wrong. */
  lemma OtherLetterScores(g: Game, q: Question, letter: char, text: string, d: char, reply: Option<string>)
    requires g.current == Some(q) && IsMultipleChoice(q) && q.answer == [letter, ')'] + text
    requires 'A' <= letter <= 'Z' && 'A' <= d <= 'Z' && d != letter && [d] != ToUpper(Trim(text))
    requires g.scores == map[]
    ensures Submit(g, [d], reply).scores == map[CategoryName(q) := Score(0, 1)]
  {
    OtherLetterRejected(letter, text, d);
    assert !Verdict(g.current, g.apiKey, [d], reply);
    ScoresOnEmpty(g, [d], reply);
  }

  /** On an empty board a submission leaves one entry, holding its verdict alone. */
  lemma ScoresOnEmpty(g: Game, typed: string, reply: Option<string>)
    requires g.scores == map[]
    ensures var v := Verdict(g.current, g.apiKey, typed, reply);
      Submit(g, typed, reply).scores == map[ScoredUnder(g.current) := if v then Score(1, 0) else Score(0, 1)]
  {
    var v := Verdict(g.current, g.apiKey, typed, reply);
    assert Submit(g, typed, reply).scores == Record(map[], ScoredUnder(g.current), v);
  }
}

=== FILE: optional.dfy ===
/** A value that may be absent: a missing JSON field, an `undefined` reply, a null reference. */
module Optional {

  datatype Option<+T> = None | Some(value: T) {

    /** The carried value, or `default` when there is none, as an absent field reads as `undefined`. */
    function GetOr(default: T): T
    {
      match this
      case Some(v) => v
      case None => default
    }
  }
}

=== FILE: repository.dfy ===
/**
  The question bank: loading (keep the non-bonus questions), the category menu
  (sorted, distinct, a missing category shown as "Unknown"), and the category-filtered
  pool with its random draw.
 */
module Repository {
  import opened Optional
  import opened Lexicographic
  import Seqs

  /**
    One record of the bank. `kind` is the record's `type` field and `answer` its
    `parsed_answer`; both read as "" when absent, which every use treats like a missing
    field. `text` is `parsed_question`. `category` and `bonus` keep absence distinct,
    because the code tells absence apart from other values there.
   */
  datatype Question = Question(
    category: Option<string>,
    kind: string,
    text: Option<string>,
    answer: string,
    bonus: Option<bool>)

  /** The bank keeps a question only when its `bonus` field is exactly `false`. */
  predicate Regular(q: Question)
  {
    q.bonus == Some(false)
  }

  /** The category a question is listed and scored under: a missing or empty one is "Unknown". */
  function CategoryName(q: Question): (c: string)
    ensures c != ""
    ensures c == "Unknown" <==> q.category.None? || q.category.value in {"", "Unknown"}
    ensures q.category.Some? && q.category.value != "" ==> c == q.category.value
  {
    match q.category
    case Some(c) => if c != "" then c else "Unknown"
    case None => "Unknown"
  }

  /** The bank left after loading a fetched question array. */
  function LoadBank(fetched: seq<Question>): (bank: seq<Question>)
    ensures forall q :: q in bank <==> q in fetched && q.bonus == Some(false)
    ensures forall q :: multiset(bank)[q] == if q.bonus == Some(false) then multiset(fetched)[q] else 0
  {
    Seqs.Filter(fetched, Regular)
  }

  ghost function Labels(bank: seq<Question>): set<string>
  {
    set q | q in bank :: CategoryName(q)
  }

  /** The category menu: every category of the bank exactly once, in ascending order. */
  function Categories(bank: seq<Question>): (menu: seq<string>)
    ensures Ascending(menu)
    ensures forall c :: c in menu <==> c in Labels(bank)
  {
    if |bank| == 0 then []
    else
      var init := bank[..|bank| - 1];
      var last := bank[|bank| - 1];
      assert bank == init + [last];
      assert Labels(bank) == Labels(init) + {CategoryName(last)};
      Insert(Categories(init), CategoryName(last))
  }

  /** What the category area shows once the fetch settles: the menu, or nothing on failure. */
  function Menu(fetched: Option<seq<Question>>): (menu: Option<seq<string>>)
    ensures menu.Some? <==> fetched.Some?
    ensures fetched.Some? ==> Ascending(menu.value)
    ensures fetched.Some? ==> forall c :: c in menu.value <==>
              exists q :: q in fetched.value && q.bonus == Some(false) && CategoryName(q) == c
  {
    match fetched
    case Some(qs) =>
      var bank := LoadBank(qs);
      assert forall c :: c in Labels(bank) <==> exists q :: q in bank && CategoryName(q) == c;
      Some(Categories(bank))
    case None => None
  }

  /** The pool test compares the raw category field with the ticked category names. */
  predicate Selected(q: Question, ticked: set<string>)
  {
    q.category.Some? && q.category.value in ticked
  }

  function Pool(bank: seq<Question>, ticked: set<string>): (pool: seq<Question>)
    ensures forall q :: q in pool <==> q in bank && q.category.Some? && q.category.value in ticked
    ensures forall q :: multiset(pool)[q] == if Selected(q, ticked) then multiset(bank)[q] else 0
  {
    Seqs.Filter(bank, q => Selected(q, ticked))
  }

  /** `Math.floor(roll * n)` for a `roll` drawn from [0, 1). */
  function DrawIndex(n: nat, roll: real): (i: nat)
    requires n > 0 && 0.0 <= roll < 1.0
    ensures i < n
  {
    var x := roll * n as real;
    assert (1.0 - roll) * n as real > 0.0;
    assert x < n as real;
    x.Floor
  }

  function Draw(pool: seq<Question>, roll: real): (q: Question)
    requires |pool| > 0 && 0.0 <= roll < 1.0
    ensures q in pool
  {
    pool[DrawIndex(|pool|, roll)]
  }

  /** Every member of the pool is the outcome of some roll. */
  lemma DrawCoversPool(pool: seq<Question>, i: nat)
    requires i < |pool|
    ensures var roll := i as real / |pool| as real;
      0.0 <= roll < 1.0 && Draw(pool, roll) == pool[i]
  {
    var roll := i as real / |pool| as real;
    RollOfIndex(i, |pool|);
    assert DrawIndex(|pool|, roll) == i;
  }

  lemma RollOfIndex(i: nat, n: nat)
    requires i < n
    ensures var roll := i as real / n as real;
      0.0 <= roll < 1.0 && roll * n as real == i as real
  {
  }

  /** The raw category field holds a non-empty name. */
  predicate Named(q: Question)
  {
    q.category.Some? && q.category.value != ""
  }

  /**
    With every menu entry ticked, the pool is the bank's questions whose raw category is a
    non-empty name: a question listed under "Unknown" because its category is missing or
    empty can never be drawn.
   */
  lemma PoolOfWholeMenu(bank: seq<Question>)
    ensures Pool(bank, set c | c in Categories(bank)) ==
            Seqs.Filter(bank, Named)
  {
    var ticked := set c | c in Categories(bank);
    forall q | q in bank
      ensures Selected(q, ticked) == Named(q)
    {
      if Named(q) {
        assert CategoryName(q) in Labels(bank);
      }
    }
    Seqs.FilterAgrees(bank, q => Selected(q, ticked), Named);
  }
}

=== FILE: scoreboard.dfy ===
/** Per-category tallies of right and wrong answers, created on first use and only ever incremented. */
module Scoreboard {

  datatype Score = Score(correct: nat, wrong: nat)

  type Board = map<string, Score>

  /** The tally of a category, zero when it has none yet. */
  function Entry(board: Board, category: string): Score
  {
    if category in board then board[category] else Score(0, 0)
  }

  /** One resolved submission: the category's entry is created if absent, then one counter grows. */
  function Record(board: Board, category: string, isCorrect: bool): (r: Board)
    ensures r.Keys == board.Keys + {category}
    ensures forall c :: c in board && c != category ==> r[c] == board[c]
    ensures r[category].correct + r[category].wrong ==
            Entry(board, category).correct + Entry(board, category).wrong + 1
    ensures isCorrect <==> r[category].correct == Entry(board, category).correct + 1
    ensures isCorrect <==> r[category].wrong == Entry(board, category).wrong
    ensures r[category].correct >= Entry(board, category).correct && r[category].wrong >= Entry(board, category).wrong
  {
    var s := Entry(board, category);
    board[category := if isCorrect then s.(correct := s.correct + 1) else s.(wrong := s.wrong + 1)]
  }

  /** A resolved submission: the category it was scored under and its verdict. */
  datatype Outcome = Outcome(category: string, isCorrect: bool)

  /** Recording a history of outcomes, oldest first. */
  function RecordAll(board: Board, log: seq<Outcome>): Board
  {
    if |log| == 0 then board
    else
      var last := log[|log| - 1];
      Record(RecordAll(board, log[..|log| - 1]), last.category, last.isCorrect)
  }

  /** How many outcomes of `log` were scored under `category` with verdict `verdict`. */
  function Count(log: seq<Outcome>, category: string, verdict: bool): nat
  {
    if |log| == 0 then 0
    else
      var last := log[|log| - 1];
      Count(log[..|log| - 1], category, verdict) +
        (if last.category == category && last.isCorrect == verdict then 1 else 0)
  }

  /**
    Conservation: after a history of submissions each category's counters are its earlier
    counters plus the number of right and of wrong outcomes scored under it.
   */
  lemma {:induction false} Tally(board: Board, log: seq<Outcome>, c: string)
    ensures Entry(RecordAll(board, log), c) ==
            Score(Entry(board, c).correct + Count(log, c, true), Entry(board, c).wrong + Count(log, c, false))
  {
    if |log| > 0 {
      Tally(board, log[..|log| - 1], c);
    }
  }

  /** The board gains exactly the categories that occur in the history. */
  lemma {:induction false} Gains(board: Board, log: seq<Outcome>, c: string)
    ensures c in RecordAll(board, log) <==> c in board || exists i :: 0 <= i < |log| && log[i].category == c
  {
    if |log| > 0 {
      var init := log[..|log| - 1];
      Gains(board, init, c);
      assert forall i :: 0 <= i < |init| ==> init[i] == log[i];
    }
  }

  /** From an empty board, a category's two counters add up to its number of submissions. */
  lemma Conservation(log: seq<Outcome>, c: string)
    ensures var s := Entry(RecordAll(map[], log), c);
      s.correct + s.wrong == Count(log, c, true) + Count(log, c, false)
  {
    Tally(map[], log, c);
  }

  /** Counters never go down and entries are never removed. */
  predicate Grows(before: Board, after: Board)
  {
    forall c :: c in before ==>
      c in after && after[c].correct >= before[c].correct && after[c].wrong >= before[c].wrong
  }

  lemma RecordGrows(board: Board, category: string, isCorrect: bool)
    ensures Grows(board, Record(board, category, isCorrect))
  {
  }
}

=== FILE: seqs.dfy ===
/** `Array.prototype.filter`: the order-preserving subsequence of the elements a test accepts. */
module Seqs {

  function Filter<T(==,!new)>(s: seq<T>, keep: T -> bool): (r: seq<T>)
    ensures |r| <= |s|
    ensures forall x :: x in r <==> x in s && keep(x)
    ensures forall x :: multiset(r)[x] == if keep(x) then multiset(s)[x] else 0
  {
    if |s| == 0 then []
    else
      assert s == [s[0]] + s[1..];
      if keep(s[0]) then [s[0]] + Filter(s[1..], keep) else Filter(s[1..], keep)
  }

  /** Filtering distributes over concatenation, so it keeps the relative order of the survivors. */
  lemma {:induction false} FilterConcat<T(!new)>(a: seq<T>, b: seq<T>, keep: T -> bool)
    ensures Filter(a + b, keep) == Filter(a, keep) + Filter(b, keep)
  {
    if |a| > 0 {
      assert (a + b)[0] == a[0];
      assert (a + b)[1..] == a[1..] + b;
      FilterConcat(a[1..], b, keep);
    } else {
      assert a + b == b;
    }
  }

  /** Two tests that agree on every element select the same subsequence. */
  lemma {:induction false} FilterAgrees<T(!new)>(s: seq<T>, p: T -> bool, q: T -> bool)
    requires forall x :: x in s ==> p(x) == q(x)
    ensures Filter(s, p) == Filter(s, q)
  {
    if |s| > 0 {
      assert forall x :: x in s[1..] ==> x in s;
      FilterAgrees(s[1..], p, q);
    }
  }
}

=== FILE: strings.dfy ===
/**
  The string primitives the game relies on: `trim`, `toUpperCase`, `toLowerCase`,
  `startsWith` and `includes`. Case mapping is ASCII-only and `trim` strips the ASCII
  white-space characters (space, tab, line feed, vertical tab, form feed, carriage return).
 */
module Strings {

  predicate IsSpace(c: char)
  {
    c == ' ' || c == '\t' || c == '\n' || c == '\U{0B}' || c == '\U{0C}' || c == '\r'
  }

  predicate AllSpace(s: string)
  {
    forall i :: 0 <= i < |s| ==> IsSpace(s[i])
  }

  /** No white space at either end. */
  predicate Tight(s: string)
  {
    |s| > 0 ==> !IsSpace(s[0]) && !IsSpace(s[|s| - 1])
  }

  /** Drops leading white space: the result is the suffix that starts at the first non-space. */
  function TrimStart(s: string): (r: string)
    ensures |r| <= |s| && r == s[|s| - |r|..]
    ensures |r| > 0 ==> !IsSpace(r[0])
  {
    if |s| > 0 && IsSpace(s[0]) then TrimStart(s[1..]) else s
  }

  /** Drops trailing white space: the result is the prefix that ends at the last non-space. */
  function TrimEnd(s: string): (r: string)
    ensures |r| <= |s| && r == s[..|r|]
    ensures |r| > 0 ==> !IsSpace(r[|r| - 1])
  {
    if |s| > 0 && IsSpace(s[|s| - 1]) then TrimEnd(s[..|s| - 1]) else s
  }

  /** Only white space is dropped at the front. */
  lemma {:induction false} TrimStartDropsSpace(s: string)
    ensures AllSpace(s[..|s| - |TrimStart(s)|])
  {
    if |s| > 0 && IsSpace(s[0]) {
      TrimStartDropsSpace(s[1..]);
      var k := |s| - |TrimStart(s)|;
      assert forall i :: 1 <= i < k ==> s[i] == s[1..][i - 1];
    }
  }

  /** Only white space is dropped at the back. */
  lemma {:induction false} TrimEndDropsSpace(s: string)
    ensures AllSpace(s[|TrimEnd(s)|..])
  {
    if |s| > 0 && IsSpace(s[|s| - 1]) {
      TrimEndDropsSpace(s[..|s| - 1]);
      var m := |TrimEnd(s)|;
      assert forall i :: m <= i < |s| - 1 ==> s[i] == s[..|s| - 1][i];
    }
  }

  function Trim(s: string): (r: string)
  {
    TrimEnd(TrimStart(s))
  }

  /** A trimmed string has no white space at either end. */
  lemma TrimIsTight(s: string)
    ensures Tight(Trim(s))
  {
    var t := TrimStart(s);
    var r := TrimEnd(t);
    if |r| > 0 {
      assert r[0] == t[0];
    }
  }

  /** Trim removes exactly the white-space padding around a tight core. */
  lemma TrimOfPadded(p: string, core: string, q: string)
    requires AllSpace(p) && AllSpace(q) && Tight(core)
    ensures Trim(p + core + q) == core
  {
    TrimStartPadded(p, core, q);
    TrimEndAfterStart(core, q);
  }

  lemma TrimStartPadded(p: string, core: string, q: string)
    requires AllSpace(p)
    ensures TrimStart(p + core + q) == TrimStart(core + q)
  {
    Associative(p, core, q);
    TrimStartSkipsSpace(p, core + q);
  }

  lemma TrimEndAfterStart(core: string, q: string)
    requires AllSpace(q) && Tight(core)
    ensures TrimEnd(TrimStart(core + q)) == core
  {
    TrimStartOfTight(core, q);
    TrimEndOfPadded(core, q);
  }

  /** Leading trimming of a tight core followed by white space removes nothing or everything. */
  lemma TrimStartOfTight(core: string, q: string)
    requires AllSpace(q) && Tight(core)
    ensures TrimStart(core + q) == if |core| == 0 then [] else core + q
  {
    if |core| == 0 {
      assert core + q == q;
    } else {
      assert (core + q)[0] == core[0];
    }
  }

  lemma {:induction false} TrimStartSkipsSpace(p: string, s: string)
    requires AllSpace(p)
    ensures TrimStart(p + s) == TrimStart(s)
  {
    if |p| > 0 {
      assert (p + s)[0] == p[0];
      assert (p + s)[1..] == p[1..] + s;
      TrimStartSkipsSpace(p[1..], s);
    } else {
      assert p + s == s;
    }
  }

  lemma {:induction false} TrimEndOfPadded(core: string, q: string)
    requires AllSpace(q) && Tight(core)
    ensures TrimEnd(core + q) == core
  {
    if |q| > 0 {
      assert (core + q)[..|core + q| - 1] == core + q[..|q| - 1];
      TrimEndOfPadded(core, q[..|q| - 1]);
    } else {
      assert core + q == core;
      if |core| > 0 {
        assert !IsSpace(core[|core| - 1]);
      }
    }
  }

  /** White space around a string never survives trimming. */
  lemma TrimAbsorbsPadding(p: string, s: string, q: string)
    requires AllSpace(p) && AllSpace(q)
    ensures Trim(p + s + q) == Trim(s)
  {
    var p', q' := TrimParts(s);
    var core := Trim(s);
    TrimIsTight(s);
    Regroup(p, p', core, q', q);
    AllSpaceConcat(p, p');
    AllSpaceConcat(q', q);
    TrimOfPadded(p + p', core, q' + q);
  }

  lemma AllSpaceConcat(a: string, b: string)
    requires AllSpace(a) && AllSpace(b)
    ensures AllSpace(a + b)
  {
  }

  lemma Associative(a: string, b: string, c: string)
    ensures a + b + c == a + (b + c)
  {
  }

  lemma Regroup(a: string, b: string, c: string, d: string, e: string)
    ensures a + (b + c + d) + e == (a + b) + c + (d + e)
  {
  }

  /** A string is its trimmed core between two runs of white space. */
  lemma TrimParts(s: string) returns (p: string, q: string)
    ensures AllSpace(p) && AllSpace(q)
    ensures s == p + Trim(s) + q
  {
    var ts := TrimStart(s);
    var k := |s| - |ts|;
    var m := |Trim(s)|;
    assert Trim(s) == s[k..k + m] && k + m <= |s| by {
      TrimIsSlice(s, k, m);
    }
    p, q := s[..k], s[k + m..];
    assert AllSpace(p) by {
      TrimStartDropsSpace(s);
    }
    assert AllSpace(q) by {
      assert ts == s[k..];
      assert q == ts[m..];
      TrimEndDropsSpace(ts);
    }
    assert s == p + s[k..k + m] + q;
  }

  function UpperChar(c: char): char
  {
    if 'a' <= c <= 'z' then (c as int - 32) as char else c
  }

  function LowerChar(c: char): char
  {
    if 'A' <= c <= 'Z' then (c as int + 32) as char else c
  }

  function ToUpper(s: string): (r: string)
    ensures |r| == |s|
  {
    if |s| == 0 then [] else [UpperChar(s[0])] + ToUpper(s[1..])
  }

  function ToLower(s: string): (r: string)
    ensures |r| == |s|
  {
    if |s| == 0 then [] else [LowerChar(s[0])] + ToLower(s[1..])
  }

  /** Upper-casing maps each character on its own. */
  lemma {:induction false} UpperEach(s: string)
    ensures forall i :: 0 <= i < |s| ==> ToUpper(s)[i] == UpperChar(s[i])
  {
    if |s| > 0 {
      UpperEach(s[1..]);
      assert forall i :: 1 <= i < |s| ==> ToUpper(s)[i] == ToUpper(s[1..])[i - 1];
    }
  }

  /** Lower-casing maps each character on its own. */
  lemma {:induction false} LowerEach(s: string)
    ensures forall i :: 0 <= i < |s| ==> ToLower(s)[i] == LowerChar(s[i])
  {
    if |s| > 0 {
      LowerEach(s[1..]);
      assert forall i :: 1 <= i < |s| ==> ToLower(s)[i] == ToLower(s[1..])[i - 1];
    }
  }

  /** Strings whose white space sits at the same positions trim to the same positions. */
  lemma {:induction false} TrimSameShape(a: string, b: string)
    requires |a| == |b|
    requires forall i :: 0 <= i < |a| ==> (IsSpace(a[i]) <==> IsSpace(b[i]))
    ensures |TrimStart(a)| == |TrimStart(b)|
    ensures |Trim(a)| == |Trim(b)|
  {
    TrimStartSameShape(a, b);
    var ta, tb := TrimStart(a), TrimStart(b);
    var k := |a| - |ta|;
    assert ta == a[k..] && tb == b[k..];
    forall i | 0 <= i < |ta|
      ensures IsSpace(ta[i]) <==> IsSpace(tb[i])
    {
      assert ta[i] == a[k + i] && tb[i] == b[k + i];
    }
    TrimEndSameShape(ta, tb);
  }

  lemma {:induction false} TrimStartSameShape(a: string, b: string)
    requires |a| == |b|
    requires forall i :: 0 <= i < |a| ==> (IsSpace(a[i]) <==> IsSpace(b[i]))
    ensures |TrimStart(a)| == |TrimStart(b)|
  {
    if |a| > 0 && IsSpace(a[0]) {
      TrimStartSameShape(a[1..], b[1..]);
    }
  }

  lemma {:induction false} TrimEndSameShape(a: string, b: string)
    requires |a| == |b|
    requires forall i :: 0 <= i < |a| ==> (IsSpace(a[i]) <==> IsSpace(b[i]))
    ensures |TrimEnd(a)| == |TrimEnd(b)|
  {
    if |a| > 0 && IsSpace(a[|a| - 1]) {
      TrimEndSameShape(a[..|a| - 1], b[..|b| - 1]);
    }
  }

  /** Case mapping never turns white space into something else or back. */
  lemma TrimCommutesWithUpper(s: string)
    ensures Trim(ToUpper(s)) == ToUpper(Trim(s))
  {
    var u := ToUpper(s);
    UpperEach(s);
    UpperEach(Trim(s));
    TrimSameShape(s, u);
    var k := |s| - |TrimStart(s)|;
    var m := |Trim(s)|;
    TrimIsSlice(s, k, m);
    TrimIsSlice(u, k, m);
  }

  lemma TrimCommutesWithLower(s: string)
    ensures Trim(ToLower(s)) == ToLower(Trim(s))
  {
    var l := ToLower(s);
    LowerEach(s);
    LowerEach(Trim(s));
    TrimSameShape(s, l);
    var k := |s| - |TrimStart(s)|;
    var m := |Trim(s)|;
    TrimIsSlice(s, k, m);
    TrimIsSlice(l, k, m);
  }

  /** Trim keeps the slice between the leading and the trailing white space. */
  lemma TrimIsSlice(s: string, k: nat, m: nat)
    requires k == |s| - |TrimStart(s)| && m == |Trim(s)|
    ensures k + m <= |s| && Trim(s) == s[k..k + m]
  {
    var ts := TrimStart(s);
    var r := TrimEnd(ts);
    assert ts == s[k..] && r == ts[..m];
    SliceOfSlice(s, k, m);
  }

  lemma SliceOfSlice(s: string, k: nat, m: nat)
    requires k + m <= |s|
    ensures s[k..][..m] == s[k..k + m]
  {
  }

  /** Upper-casing forgets any earlier lower-casing (and vice versa). */
  lemma CaseAbsorbs(s: string)
    ensures ToUpper(ToLower(s)) == ToUpper(s)
    ensures ToLower(ToUpper(s)) == ToLower(s)
  {
    UpperEach(s);
    LowerEach(s);
    UpperEach(ToLower(s));
    LowerEach(ToUpper(s));
  }

  lemma UpperIdempotent(s: string)
    ensures ToUpper(ToUpper(s)) == ToUpper(s)
  {
    UpperEach(s);
    UpperEach(ToUpper(s));
  }

  /** `s.startsWith(p)` */
  predicate StartsWith(s: string, p: string)
  {
    |p| <= |s| && s[..|p|] == p
  }

  /** `s.includes(sub)`: some suffix of `s` starts with `sub`. */
  predicate Contains(s: string, sub: string)
  {
    StartsWith(s, sub) || (|s| > 0 && Contains(s[1..], sub))
  }

  /** `sub` occurs in `s` starting at position `i`. */
  predicate OccursAt(s: string, sub: string, i: int)
  {
    0 <= i && i + |sub| <= |s| && s[i..i + |sub|] == sub
  }

  /** `includes` finds `sub` exactly when it occurs at some position of `s`. */
  lemma {:induction false} ContainsAt(s: string, sub: string)
    ensures Contains(s, sub) <==> exists i :: OccursAt(s, sub, i)
  {
    if StartsWith(s, sub) {
      assert OccursAt(s, sub, 0);
    }
    if |s| > 0 {
      ContainsAt(s[1..], sub);
      if Contains(s[1..], sub) {
        var i :| OccursAt(s[1..], sub, i);
        assert s[i + 1..i + 1 + |sub|] == s[1..][i..i + |sub|];
        assert OccursAt(s, sub, i + 1);
      }
      if i :| OccursAt(s, sub, i) {
        if i > 0 {
          assert s[1..][i - 1..i - 1 + |sub|] == s[i..i + |sub|];
          assert OccursAt(s[1..], sub, i - 1);
        }
      }
    }
  }
}

=== FILE: utf16.dfy ===
/**
  JavaScript strings as sequences of UTF-16 code units. `length` and indexing count code
  units, so a character above U+FFFF occupies two positions: a high surrogate followed by a
  low surrogate (section 3.9 of The Unicode Standard, UTF-16 encoding form).
 */
module Utf16 {

  /** One UTF-16 code unit, the element a JavaScript string is indexed by. */
  type CodeUnit = u: int | 0 <= u < 0x1_0000

  predicate IsHigh(u: CodeUnit)
  {
    0xD800 <= u < 0xDC00
  }

  predicate IsLow(u: CodeUnit)
  {
    0xDC00 <= u < 0xE000
  }

  /** The code point a surrogate pair stands for. */
  function Pair(hi: CodeUnit, lo: CodeUnit): int
  {
    (hi as int - 0xD800) * 0x400 + (lo as int - 0xDC00) + 0x1_0000
  }

  /** The code units of one character: itself below U+10000, a surrogate pair above. */
  function Units(c: char): (u: seq<CodeUnit>)
    ensures c as int < 0x1_0000 ==> u == [c as int]
    ensures c as int >= 0x1_0000 ==>
      && |u| == 2 && IsHigh(u[0]) && IsLow(u[1])
      && Pair(u[0], u[1]) == c as int
  {
    var v := c as int;
    if v < 0x1_0000 then [v]
    else [0xD800 + (v - 0x1_0000) / 0x400, 0xDC00 + (v - 0x1_0000) % 0x400]
  }

  /** The JavaScript string holding `s`. */
  function Encode(s: string): (u: seq<CodeUnit>)
    ensures |u| >= |s|
    ensures (forall i :: 0 <= i < |s| ==> s[i] as int < 0x1_0000) ==>
      |u| == |s| && forall i :: 0 <= i < |s| ==> u[i] == s[i] as int
  {
    if |s| == 0 then [] else Units(s[0]) + Encode(s[1..])
  }

  /**
    Reads code units back as characters: a surrogate pair is one character, and a lone
    surrogate, which no character encodes, reads as U+FFFD.
   */
  function Decode(u: seq<CodeUnit>): string
    decreases |u|
  {
    if |u| == 0 then ""
    else if |u| >= 2 && IsHigh(u[0]) && IsLow(u[1]) then
      [Pair(u[0], u[1]) as char] + Decode(u[2..])
    else if IsHigh(u[0]) || IsLow(u[0]) then ['\U{FFFD}'] + Decode(u[1..])
    else [u[0] as char] + Decode(u[1..])
  }

  /** Decoding undoes encoding, so no two strings share a code-unit sequence. */
  lemma {:induction false} DecodeEncode(s: string)
    ensures Decode(Encode(s)) == s
  {
    if |s| > 0 {
      var head, rest := Units(s[0]), Encode(s[1..]);
      DecodeEncode(s[1..]);
      if s[0] as int < 0x1_0000 {
        assert (head + rest)[1..] == rest;
      } else {
        assert (head + rest)[2..] == rest;
      }
      assert s == [s[0]] + s[1..];
    }
  }
}

=== FILE: verifier.dfy ===
/**
  Answer checking inside `submitAnswer`: a multiple-choice key is matched by its option
  letter or its option text; any other question is judged by the language-model reply,
  which arrives here as an input (absent when the call failed or carried no text).
 */
module Verifier {
  import opened Optional
  import opened Strings
  import opened Repository

  /** The key opens with an upper-case option letter and a closing parenthesis. */
  predicate Lettered(key: string)
  {
    |key| >= 2 && 'A' <= key[0] <= 'Z' && key[1] == ')'
  }

  /** The option letter of the key, or "" when the key has none. */
  function KeyLetter(key: string): string
  {
    if Lettered(key) then [key[0]] else ""
  }

  /** The option text of the key: letter prefix removed, trimmed, upper-cased. */
  function KeyText(key: string): string
  {
    ToUpper(Trim(if Lettered(key) then key[2..] else key))
  }

  /** The answer box as compared: trimmed, then upper-cased. */
  function Normal(typed: string): string
  {
    ToUpper(Trim(typed))
  }

  /**
    Multiple-choice verdict for the raw contents of the answer box. A key without an option
    letter accepts every answer; with one, an answer opening with the letter is right.
   */
  function MultipleChoice(key: string, typed: string): (ok: bool)
    ensures !Lettered(key) ==> ok
    ensures Lettered(key) && |Normal(typed)| > 0 && Normal(typed)[0] == key[0] ==> ok
  {
    var user := Normal(typed);
    StartsWith(user, KeyLetter(key)) || user == KeyText(key)
  }

  /**
    For a key `L) text`, an answer is right exactly when, trimmed and upper-cased, it starts
    with `L` or spells `text` trimmed and upper-cased.
   */
  lemma KeyedAnswer(letter: char, text: string, typed: string)
    requires 'A' <= letter <= 'Z'
    ensures var user := ToUpper(Trim(typed));
      MultipleChoice([letter, ')'] + text, typed) <==>
        (|user| > 0 && user[0] == letter) || user == ToUpper(Trim(text))
  {
    var key := [letter, ')'] + text;
    assert Lettered(key) && key[2..] == text;
  }

  ghost predicate AcceptsEverything(key: string)
  {
    forall typed :: MultipleChoice(key, typed)
  }

  /** Every answer, the empty one included, is right exactly when the key has no option letter. */
  lemma UnletteredKeyAcceptsAll(key: string)
    ensures AcceptsEverything(key) <==> !Lettered(key)
  {
    if Lettered(key) {
      var letter, text := key[0], key[2..];
      assert key == [letter, ')'] + text;
      var d := SpareLetter(letter, ToUpper(Trim(text)));
      OtherLetterRejected(letter, text, d);
    } else {
      forall typed
        ensures MultipleChoice(key, typed)
      {
        assert Normal(typed)[..0] == "";
      }
    }
  }

  /** One of A, B and C that is neither `letter` nor the whole of `text`. */
  function SpareLetter(letter: char, text: string): (d: char)
    ensures 'A' <= d <= 'Z' && d != letter && [d] != text
  {
    if letter != 'A' && text != "A" then 'A'
    else if letter != 'B' && text != "B" then 'B'
    else 'C'
  }

  /** The empty answer is right only when the key has no letter or no option text. */
  lemma EmptyAnswer(key: string)
    ensures MultipleChoice(key, "") <==> !Lettered(key) || Trim(key[2..]) == ""
  {
  }

  /** Case and surrounding white space of the answer never change the verdict. */
  lemma CaseAndPaddingBlind(key: string, typed: string, p: string, q: string)
    requires AllSpace(p) && AllSpace(q)
    ensures MultipleChoice(key, ToLower(typed)) == MultipleChoice(key, typed)
    ensures MultipleChoice(key, ToUpper(typed)) == MultipleChoice(key, typed)
    ensures MultipleChoice(key, p + typed + q) == MultipleChoice(key, typed)
  {
    NormalForgetsLower(typed);
    NormalForgetsUpper(typed);
    TrimAbsorbsPadding(p, typed, q);
  }

  lemma NormalForgetsLower(typed: string)
    ensures Normal(ToLower(typed)) == Normal(typed)
  {
    var t := Trim(typed);
    TrimCommutesWithLower(typed);
    assert Trim(ToLower(typed)) == ToLower(t);
    CaseAbsorbs(t);
  }

  lemma NormalForgetsUpper(typed: string)
    ensures Normal(ToUpper(typed)) == Normal(typed)
  {
    var t := Trim(typed);
    TrimCommutesWithUpper(typed);
    assert Trim(ToUpper(typed)) == ToUpper(t);
    UpperIdempotent(t);
  }

  /** Any answer whose first character is the option letter, in either case, is right. */
  lemma LetterPrefixSuffices(key: string, typed: string)
    requires Lettered(key)
    requires |Trim(typed)| > 0 && UpperChar(Trim(typed)[0]) == key[0]
    ensures MultipleChoice(key, typed)
  {
  }

  /** The option letter typed alone, in either case, is right. */
  lemma LetterAccepted(letter: char, text: string, c: char)
    requires 'A' <= letter <= 'Z' && UpperChar(c) == letter
    ensures MultipleChoice([letter, ')'] + text, [c])
  {
    TightNormal([c]);
    KeyedAnswer(letter, text, [c]);
  }

  /** Another single letter is wrong unless it happens to be the whole option text. */
  lemma OtherLetterRejected(letter: char, text: string, d: char)
    requires 'A' <= letter <= 'Z' && 'A' <= d <= 'Z' && d != letter && [d] != ToUpper(Trim(text))
    ensures !MultipleChoice([letter, ')'] + text, [d])
  {
    TightNormal([d]);
    KeyedAnswer(letter, text, [d]);
  }

  /** The reply counts as a "yes" once trimmed, lower-cased, and checked for the prefix. */
  function JudgeReply(apiKey: string, reply: Option<string>): (yes: bool)
    ensures yes ==> apiKey != "" && reply.Some?
  {
    if apiKey == "" then false
    else
      match reply
      case None => false
      case Some(t) =>
        var text := Trim(t);
        text != "" && StartsWith(ToLower(text), "yes")
  }

  /** The first three characters spell "yes" in some mix of cases. */
  predicate SaysYes(s: string)
  {
    |s| >= 3 && LowerChar(s[0]) == 'y' && LowerChar(s[1]) == 'e' && LowerChar(s[2]) == 's'
  }

  /**
    Trailing white space of the reply is irrelevant: the verdict is "yes" exactly when a
    key is set and the reply, past its leading white space, spells y-e-s in any case.
   */
  lemma JudgeReadsLeadingYes(apiKey: string, t: string)
    ensures JudgeReply(apiKey, Some(t)) <==> apiKey != "" && SaysYes(TrimStart(t))
  {
    var lead := TrimStart(t);
    var text := TrimEnd(lead);
    assert text == Trim(t);
    LowerYes(text);
    TrimEndKeepsYes(lead);
  }

  lemma LowerYes(s: string)
    ensures StartsWith(ToLower(s), "yes") <==> SaysYes(s)
  {
    LowerEach(s);
    if |s| >= 3 {
      assert ToLower(s)[..3] == [LowerChar(s[0]), LowerChar(s[1]), LowerChar(s[2])];
    }
  }

  lemma TrimEndKeepsYes(s: string)
    ensures SaysYes(TrimEnd(s)) <==> SaysYes(s)
  {
    var r := TrimEnd(s);
    if SaysYes(s) {
      TrimEndDropsSpace(s);
      assert !IsSpace(s[2]);
      assert |r| > 2;
      assert r[..3] == s[..3];
    }
    if |r| >= 3 {
      assert r[0] == s[0] && r[1] == s[1] && r[2] == s[2];
    }
  }

  /** The question's `type` mentions "multiple" in some case. */
  predicate IsMultipleChoice(q: Question)
  {
    Strings.Contains(ToLower(q.kind), "multiple")
  }

  /** A question is multiple-choice exactly when its lower-cased `type` holds "multiple" at some position. */
  lemma MultipleChoiceKind(q: Question)
    ensures IsMultipleChoice(q) <==>
      exists i :: OccursAt(ToLower(q.kind), "multiple", i)
  {
    var word := "multiple";
    ContainsAt(ToLower(q.kind), word);
    assert IsMultipleChoice(q) == Contains(ToLower(q.kind), word);
  }

  /**
    The verdict of one submission. A multiple-choice verdict never consults the reply or
    the key; any other verdict is the language model's leading "yes", so it is wrong without
    a key or without a reply, whatever was typed. With no current question the code still takes the free-response branch, with an
    empty correct answer.
   */
  function Verdict(current: Option<Question>, apiKey: string, typed: string, reply: Option<string>): (ok: bool)
    ensures current.Some? && IsMultipleChoice(current.value) ==>
      (ok <==> MultipleChoice(current.value.answer, typed))
    ensures !(current.Some? && IsMultipleChoice(current.value)) ==>
      (ok <==> apiKey != "" && reply.Some? && SaysYes(TrimStart(reply.value)))
  {
    assert reply.Some? ==> (JudgeReply(apiKey, reply) <==> apiKey != "" && SaysYes(TrimStart(reply.value))) by {
      if reply.Some? {
        JudgeReadsLeadingYes(apiKey, reply.value);
      }
    }
    match current
    case Some(q) =>
      if IsMultipleChoice(q) then MultipleChoice(q.answer, typed) else JudgeReply(apiKey, reply)
    case None => JudgeReply(apiKey, reply)
  }

  /** Answers without surrounding white space are only upper-cased. */
  lemma TightNormal(s: string)
    requires Tight(s)
    ensures Normal(s) == ToUpper(s)
  {
    TrimOfPadded("", s, "");
    assert "" + s + "" == s;
  }
}
